=== FILE: README.md ===
# SendGrid webhook ingestion, modelled in Dafny

This project models the webhook ingestion core of the Laravel package
`laravel-sendgrid-webhooks`. `WebhookController::post` receives a batch of
SendGrid event objects. It validates every event against one rule set and
rejects the whole batch if any event fails. Otherwise it runs
`processEvent` on each event in order. That step is a check-then-insert
against the webhook-event table, keyed by the unique `sg_event_id`. A new key
gets a normalised record, with `category` turned into the `categories` list.
A known key is logged as a duplicate and nothing is written.

Files:

- `basics.dfy`: `Option` and `Outcome`, the pass-or-fail verdict.
- `json.dfy`: decoded JSON values (`Json.Json`), PHP's `gettype` and
  `empty()`, Laravel's `required`, and the rule that a non-implicit rule skips
  absent attributes and blank strings.
- `validation.dfy`: the rule set of `post`. `EventViolations` collects
  violations rule by rule, the way the library runs the rules. That includes
  stopping the checks on a field once its `required` rule has failed. `ValidEvent`
  states what the rules demand, field by field. `EventViolationsIff` proves
  the two agree. The library's email-syntax and integer checks are given
  functions, bundled in a `Checks` value.
- `normalize.dfy`: the stored `Record` and the event-to-record mapping of
  `processEvent`.
- `ingest.dfy`: the store, a map from `sg_event_id` to `Record`; the
  per-event step; the ordered fold over the batch; the `post` handler; and a
  loop version of the fold.

Each per-event transaction is one atomic step. Concurrent requests are
modelled as any interleaving of the steps of their batches.

Four behaviours of the code that a reader of the package's description might not expect, all modelled as written:

- `event` only has to meet Laravel's `required`. A blank or whitespace-only
  string fails it; `false` and `0` pass.
- A present `sg_message_id` of `null` is rejected, because the `string` rule
  still runs on a present null. Only an absent `sg_message_id` becomes a null
  column.
- `category` is dropped when PHP's `empty()` holds. That includes the string
  `"0"`, so a category named "0" is lost (`Normalizer.CategoryNormalisation`).
- A JSON object is a PHP array too. So an object category whose values are all
  strings passes validation and is stored unchanged, not as a list.

## Model

| member | source | states |
|---|---|---|
| `Json.TypeOf` | src/Http/Controllers/WebhookController.php:61 | `gettype` of a decoded JSON value: "array" for lists and objects alike, "string" for strings, "NULL" for null |
| `Json.Empty` | src/Http/Controllers/WebhookController.php:99 | PHP `empty()`: a missing key, null and the string "0" are empty; a longer string and a non-empty list are not |
| `Json.Filled` | src/Http/Controllers/WebhookController.php:55-58 | Laravel `required`: a filled value is present and not null; a string is filled exactly when it is not blank; every other rule looks at a filled value |
| `Json.Applies` | src/Http/Controllers/WebhookController.php:59-65 | a non-implicit rule looks only at a present value; every present non-string, null included, is looked at; the empty string is skipped |
| `Json.EmptyVersusFilled` | src/Http/Controllers/WebhookController.php:55-58 | PHP `empty()`, used by the normaliser, and `required`, used by the validator, differ only on "0", false, 0, 0.0 (empty yet filled) and non-empty blank strings (filled by neither) |
| `Validation.RulesOf` | src/Http/Controllers/WebhookController.php:55-65 | `required` guards exactly email, timestamp, event and sg_event_id, and comes first and once in their rule lists; only `category` carries the closure |
| `Validation.Passes` | src/Http/Controllers/WebhookController.php:55-65 | `required` passes exactly on a filled value; the other rules pass on a value they skip; a present null fails `email` and `string` and passes the category closure |
| `Validation.CategoryItems` | src/Http/Controllers/WebhookController.php:65 | `*.category.*` reaches exactly the positions of a list category or the keys of an object category, and nothing for any other category |
| `Validation.EventViolations` | src/Http/Controllers/WebhookController.php:52-67 | every violation reported for an event is attributed to that event's position; a field-level violation is one of that field's rules that fails on it; no rule after `required` is reported for a field whose `required` failed |
| `Validation.FieldRulesIff` | src/Http/Controllers/WebhookController.php:55-65 | a field's rule list passes exactly when the field meets the direct statement of its demands; for `category`, the element rule is included |
| `Validation.EventViolationsIff` | src/Http/Controllers/WebhookController.php:52-67 | an event has no violation if and only if it is valid: email a non-blank string of valid syntax, timestamp filled and passing the integer check, event filled (not null, blank or an empty array), sg_event_id a non-blank string, sg_message_id absent or a string, category absent, null, a string or an array of strings |
| `Validation.FieldReported` | src/Http/Controllers/WebhookController.php:52-69 | every field an event gets wrong is reported against that event: under one of that field's own rules or, for `category`, under the element rule at one of its keys |
| `Validation.Violations` | src/Http/Controllers/WebhookController.php:52-67 | the batch's violations are exactly the union of each event's violations at its position; validation does not stop at the first failure |
| `Validation.ViolationsEmptyIff` | src/Http/Controllers/WebhookController.php:52-68 | a batch reports no violation if and only if every event in it is valid |
| `Validation.Validate` | src/Http/Controllers/WebhookController.php:52-71 | the validator passes exactly when every event is valid; a failure carries a non-empty set holding every violation of the batch; an empty batch passes |
| `Validation.MissingRequiredReported` | src/Http/Controllers/WebhookController.php:55-58 | an event lacking email, timestamp, event or sg_event_id, or holding null, a blank string or an empty array there, is reported under that field's `required` rule and no other rule of that field, and the whole batch fails |
| `Validation.BadCategoryReported` | src/Http/Controllers/WebhookController.php:60-64 | a boolean, integer or float category is reported, with the message `<index>.category must be a string or array.` |
| `Validation.Digits` | src/Http/Controllers/WebhookController.php:62 | attribute positions are written as a non-empty string of decimal digits |
| `Validation.DigitsRoundTrip` | src/Http/Controllers/WebhookController.php:62 | reading back the digits of a position gives the position |
| `Validation.CategoryReported` | src/Http/Controllers/WebhookController.php:60-64 | every reported violation of the category closure is on an event's own `category` attribute |
| `Validation.CategoryMessagesDistinct` | src/Http/Controllers/WebhookController.php:60-69 | two violations of one batch's report that carry the same controller-worded message are the same violation |
| `Validation.CategoryMessageNamesEvent` | src/Http/Controllers/WebhookController.php:62 | the category messages of two different events are different, so each message identifies its event |
| `Normalizer.ValidIsShaped` | src/Http/Controllers/WebhookController.php:55-59 | every event that passes validation has the fields `processEvent` reads: string email and sg_event_id, timestamp, event, and a sg_message_id that is absent or a string, never null |
| `Normalizer.EventId` | src/Http/Controllers/WebhookController.php:86 | the deduplication key is the event's `sg_event_id` string |
| `Normalizer.Categories` | src/Http/Controllers/WebhookController.php:99-106 | `categories` is unset exactly when PHP calls the category empty; a string becomes the list holding it; any other value is kept unchanged |
| `Normalizer.Normalize` | src/Http/Controllers/WebhookController.php:91-97 | the stored payload is the raw event unchanged, and the stored key is the event's sg_event_id |
| `Normalizer.NormalizeFields` | src/Http/Controllers/WebhookController.php:92-106 | timestamp, email, event and sg_event_id are copied; a missing or null sg_message_id becomes null and a string one is kept; categories is unset exactly when the category is PHP-empty; a set categories is a list unless it is the event's own value |
| `Normalizer.CategoryNormalisation` | src/Http/Controllers/WebhookController.php:99-106 | for a validated event: a non-empty string `s` (other than "0") is stored as `[s]`; a non-empty array is stored as it came; the string "0" and other empty values leave categories unset; anything stored is an array of strings |
| `Normalizer.CategoryRoundTrip` | src/Http/Controllers/WebhookController.php:99-106 | a non-empty list of category names is stored and read back as the same names in the same order |
| `Normalizer.SingleCategoryRoundTrip` | src/Http/Controllers/WebhookController.php:99-102 | one category name reads back as a one-element list, except "" and "0", which read back as no categories |
| `Ingest.ProcessEvent` | src/Http/Controllers/WebhookController.php:85-109 | a stored key leaves the store unchanged; a new key adds exactly that key with the event's normalised record; every existing row is untouched |
| `Ingest.ProcessEventCounts` | src/Http/Controllers/WebhookController.php:86-108 | one step adds at most one row, and it keeps every row under its own sg_event_id |
| `Ingest.DuplicateLog` | src/Http/Controllers/WebhookController.php:86-88 | a step logs at most one entry: the event itself, at the configured level, exactly when its key is stored and the duplicate log is on |
| `Ingest.ProcessAll` | src/Http/Controllers/WebhookController.php:73-75 | the ordered steps over the batch never remove or alter a stored row |
| `Ingest.LogAll` | src/Http/Controllers/WebhookController.php:141-150 | the batch logs at most one entry per event, and nothing when the duplicate log is off |
| `Ingest.FirstIndex` | src/Http/Controllers/WebhookController.php:73-75 | locates the first event in batch order that carries a given key |
| `Ingest.ProcessAllContents` | src/Http/Controllers/WebhookController.php:73-75 | after the loop, the keys are the old keys plus the batch's keys; old rows are untouched; each new key holds the record of the first event in order that carried it |
| `Ingest.ProcessAllConsistent` | database/migrations/2023_07_19_000000_create_sendgrid_webhook_events.php:24 | ingestion keeps every row under its own sg_event_id, the key the unique index is on |
| `Ingest.AllDuplicates` | src/Http/Controllers/WebhookController.php:86-89 | events whose keys are all stored change nothing, and each one is logged as a duplicate, in order, when that log is on |
| `Ingest.ProcessAllIdempotent` | src/Http/Controllers/WebhookController.php:73-89 | processing the same events a second time leaves the store as the first time did |
| `Ingest.FirstOccurrenceWins` | src/Http/Controllers/WebhookController.php:73-89 | when two events of a batch share a new key, the stored record is the first event's, payload included |
| `Ingest.InterleavedBatches` | src/Http/Controllers/WebhookController.php:85-109 | any interleaving of two batches' atomic steps stores one row per distinct key, the same key set as running them one after the other, and each new row is the record of one of the events delivered for that key |
| `Ingest.MergedIds` | src/Http/Controllers/WebhookController.php:73-75 | an interleaving of two batches holds exactly their events, and so their keys |
| `Ingest.ValidBatchShaped` | src/Http/Controllers/WebhookController.php:68-75 | every event of a batch that passed validation can be processed |
| `Ingest.Post` | src/Http/Controllers/WebhookController.php:47-76 | all or nothing: a rejected batch leaves the store unchanged, carries every violation of the batch and logs the malformed payload when that log is on; an accepted batch is run through the ordered per-event steps, with their duplicate log |
| `Ingest.PostRejectsInvalid` | src/Http/Controllers/WebhookController.php:52-71 | a batch is rejected if and only if some event in it is invalid, and a rejection names at least one violation |
| `Ingest.PostAccepted` | src/Http/Controllers/WebhookController.php:73-108 | a batch of valid events is accepted, adds exactly its keys, leaves old rows untouched, stores the first occurrence of each new key, and keeps every row under its own sg_event_id |
| `Ingest.PostIdempotent` | src/Http/Controllers/WebhookController.php:47-89 | delivering a batch twice leaves the same store and the same answer as delivering it once; on the repeat of an accepted batch, every event is logged as a duplicate when that log is on |
| `Ingest.SingleEventExample` | src/Http/Controllers/WebhookController.php:47-108 | a valid one-event batch with sg_event_id "evt-1" and category "promo" is accepted into an empty store as one row whose categories is `["promo"]` |
| `Ingest.StepAt` | src/Http/Controllers/WebhookController.php:73-75 | taking one step of the loop is processing the next event, then the rest |
| `Ingest.IngestBatch` | src/Http/Controllers/WebhookController.php:73-75 | the loop over the batch yields the store and the log of the ordered fold |

## Left out

- Transactions, `sharedLock()` and the retry count of 3 passed to `DB::transaction` (lines 85-86, 109). Each event's step is atomic in the model. Deadlocks, transient failures, retries and insert-time uniqueness conflicts therefore never arise.
- A step that fails. In the code, an exception from `processEvent` leaves the `foreach` (lines 73-75) and ends `post`. Examples are a uniqueness violation from an insert that raced another request, or a save the database refuses. The batch's earlier events stay committed and the later ones are never processed, so an accepted batch can be partly ingested. `Ingest.ProcessAll` is total and always runs every step.
- Key equality as the database sees it. The duplicate check (line 86) and the unique index on `sg_event_id` (create migration, line 24) compare keys under the column's collation. Under MySQL's usual case-insensitive collation, with `"EVT-1"` stored, the code treats `"evt-1"` or `"EVT-1 "` as a duplicate and writes nothing. In the model, `sg_event_id` equality is exact string equality, so `Ingest.ProcessEvent` adds a second row for such a key.
- Concurrency beyond interleaving. Two requests are modelled only as an interleaving of their atomic per-event steps (`Ingest.InterleavedBatches`).
- The HTTP `Request`, `ValidationException` and the response. A rejection is the `Rejected` answer carrying the violation set.
- Query-string parameters. `$request->input()` (line 51) merges the query string into the decoded body. A webhook URL such as `...?token=abc` therefore adds a non-event entry to the payload. The `*.` wildcards expand over that entry as well, so every such batch fails `required` and is rejected. The model's batch is the body's event list only.
- The validation library. Its email-syntax check and its `integer` check (PHP `FILTER_VALIDATE_INT`) are the functions of a `Checks` value. Message texts other than the category closure's are not modelled. Violations form a set, so the order of the messages is not modelled.
- A top-level payload that is a JSON object rather than a list. The batch is a sequence, and attribute names use positions.
- JSON objects are maps. Duplicate keys (the decoder keeps the last) and PHP's conversion of numeric string keys to integers are not modelled. Floats are carried as reals and never computed with.
- Global HTTP middleware that may rewrite input before the controller (trimming strings, empty strings to null).
- The `SendgridWebhookEvent` Eloquent model is not part of this model. Any attribute casts it declares are not applied: the stored timestamp is the raw value. The row id and the created/updated timestamps are also left out.
- Logging transport and `config()` lookups. The two log calls (`logMalformedPayload`, `logDuplicateEvent`, lines 122-150) become `LogEntry` values gated by a `Config` value. The malformed-payload entry carries the violation set in place of the library's message list.
- The migrations, which are schema only. The 2023 create migration defines a `category` column, while the controller writes `categories`, which the 2019 migration adds. The model follows the controller's `categories`.

=== FILE: basics.dfy ===
/** Optional values, and a verdict that either passes or fails with its reasons. */
module Basics {

  datatype Option<+T> = None | Some(value: T)

  /** Pass, or Fail carrying the reasons. */
  datatype Outcome<+E> = Pass | Fail(error: E)
}

=== FILE: ingest.dfy ===
/**
 Batch ingestion of `WebhookController::post` and `processEvent`: validate
 the whole batch, then run one check-then-insert step per event, in order,
 against a store keyed by `sg_event_id`. Each step is one transaction and is
 modelled as one atomic function application.
 */
module Ingest {
  import opened Basics
  import opened Json
  import opened Validation
  import opened Normalizer

  /** The webhook-event table; the map key is the unique `sg_event_id` index. */
  type Store = map<string, Record>

  /** Every row sits under its own `sg_event_id`. */
  predicate Consistent(s: Store)
  {
    forall k :: k in s ==> s[k].sgEventId == k
  }

  /** The logging settings: a switch and a level for each of the two diagnostics. */
  datatype Config = Config(
    logMalformedPayload: bool,
    malformedPayloadLevel: string,
    logDuplicateEvents: bool,
    duplicateEventsLevel: string)

  datatype LogEntry =
    | MalformedPayload(level: string, payload: seq<Json>, errors: set<Violation>)
    | DuplicateEvent(level: string, event: Json)

  predicate AllShaped(evs: seq<Json>)
  {
    forall e :: e in evs ==> Shaped(e)
  }

  /** The keys a sequence of events carries. */
  function Ids(evs: seq<Json>): (ids: set<string>)
    requires AllShaped(evs)
  {
    set e | e in evs :: EventId(e)
  }

  /** One event's transaction: a key already stored is left alone, a new key gets the normalised record. */
  function ProcessEvent(s: Store, ev: Json): (s': Store)
    requires Shaped(ev)
    ensures EventId(ev) in s ==> s' == s
    ensures EventId(ev) !in s ==>
      s'.Keys == s.Keys + {EventId(ev)} && s'[EventId(ev)] == Normalize(ev)
    ensures s.Keys <= s'.Keys
    ensures forall k :: k in s ==> s'[k] == s[k]
  {
    var id := EventId(ev);
    if id in s then s else s[id := Normalize(ev)]
  }

  /** A step adds at most one row, and only under the event's own key. */
  lemma ProcessEventCounts(s: Store, ev: Json)
    requires Shaped(ev)
    ensures |ProcessEvent(s, ev)| == if EventId(ev) in s then |s| else |s| + 1
    ensures Consistent(s) ==> Consistent(ProcessEvent(s, ev))
  {
  }

  /** What the duplicate branch logs, when the setting asks for it. */
  function DuplicateLog(cfg: Config, s: Store, ev: Json): (log: seq<LogEntry>)
    requires Shaped(ev)
    ensures |log| <= 1
    ensures log != [] <==> cfg.logDuplicateEvents && EventId(ev) in s
    ensures forall e :: e in log ==> e == DuplicateEvent(cfg.duplicateEventsLevel, ev)
  {
    if EventId(ev) in s && cfg.logDuplicateEvents then [DuplicateEvent(cfg.duplicateEventsLevel, ev)] else []
  }

  /** The `foreach` over the batch: every event's step, in order. */
  function ProcessAll(s: Store, evs: seq<Json>): (s': Store)
    requires AllShaped(evs)
    ensures forall k :: k in s ==> k in s' && s'[k] == s[k]
    decreases |evs|
  {
    if |evs| == 0 then s else ProcessAll(ProcessEvent(s, evs[0]), evs[1..])
  }

  /** The log entries of `ProcessAll`, in order. */
  function LogAll(cfg: Config, s: Store, evs: seq<Json>): (log: seq<LogEntry>)
    requires AllShaped(evs)
    ensures |log| <= |evs|
    ensures !cfg.logDuplicateEvents ==> log == []
    decreases |evs|
  {
    if |evs| == 0 then [] else DuplicateLog(cfg, s, evs[0]) + LogAll(cfg, ProcessEvent(s, evs[0]), evs[1..])
  }

  /** The position of the first event carrying key `k`. */
  function FirstIndex(evs: seq<Json>, k: string): (i: nat)
    requires AllShaped(evs)
    requires k in Ids(evs)
    ensures i < |evs| && EventId(evs[i]) == k
    ensures forall j :: 0 <= j < i ==> EventId(evs[j]) != k
  {
    if EventId(evs[0]) == k then 0
    else
      var i :| 0 <= i < |evs| && EventId(evs[i]) == k;
      assert evs[1..][i - 1] == evs[i];
      1 + FirstIndex(evs[1..], k)
  }

  lemma IdsCons(evs: seq<Json>)
    requires |evs| > 0 && AllShaped(evs)
    ensures Ids(evs) == {EventId(evs[0])} + Ids(evs[1..])
  {
    assert evs == [evs[0]] + evs[1..];
  }

  /**
   What a sequence of steps leaves in the store: the old keys plus the batch's
   keys; every old row untouched; every new key holding the record of the first
   event that carried it.
   */
  lemma {:induction false} ProcessAllContents(s: Store, evs: seq<Json>)
    requires AllShaped(evs)
    ensures ProcessAll(s, evs).Keys == s.Keys + Ids(evs)
    ensures forall k :: k in s ==> ProcessAll(s, evs)[k] == s[k]
    ensures forall k :: k in Ids(evs) && k !in s ==> ProcessAll(s, evs)[k] == Normalize(evs[FirstIndex(evs, k)])
    decreases |evs|
  {
    if |evs| > 0 {
      var s1, rest := ProcessEvent(s, evs[0]), evs[1..];
      IdsCons(evs);
      ProcessAllContents(s1, rest);
      forall k | k in Ids(evs) && k !in s
        ensures ProcessAll(s, evs)[k] == Normalize(evs[FirstIndex(evs, k)])
      {
        if k != EventId(evs[0]) {
          FirstIndexCons(evs, k);
        }
      }
    }
  }

  /** A key the first event does not carry is first found one place later than in the rest. */
  lemma FirstIndexCons(evs: seq<Json>, k: string)
    requires AllShaped(evs) && |evs| > 0 && AllShaped(evs[1..])
    requires k in Ids(evs[1..]) && k != EventId(evs[0])
    ensures k in Ids(evs)
    ensures FirstIndex(evs, k) == 1 + FirstIndex(evs[1..], k)
  {
    var rest := evs[1..];
    var j := FirstIndex(rest, k);
    assert rest[j] == evs[1 + j];
  }

  /** The steps never break the store's key discipline. */
  lemma {:induction false} ProcessAllConsistent(s: Store, evs: seq<Json>)
    requires AllShaped(evs)
    ensures Consistent(s) ==> Consistent(ProcessAll(s, evs))
    decreases |evs|
  {
    if |evs| > 0 {
      ProcessEventCounts(s, evs[0]);
      ProcessAllConsistent(ProcessEvent(s, evs[0]), evs[1..]);
    }
  }

  /**
   Events whose keys are all stored already change nothing, and each one is
   logged as a duplicate when that log is switched on.
   */
  lemma {:induction false} AllDuplicates(cfg: Config, s: Store, evs: seq<Json>)
    requires AllShaped(evs) && Ids(evs) <= s.Keys
    ensures ProcessAll(s, evs) == s
    ensures var log := LogAll(cfg, s, evs);
      |log| == (if cfg.logDuplicateEvents then |evs| else 0) &&
      forall i :: 0 <= i < |log| ==> log[i] == DuplicateEvent(cfg.duplicateEventsLevel, evs[i])
  {
    if |evs| > 0 {
      IdsCons(evs);
      AllDuplicates(cfg, s, evs[1..]);
    }
  }

  /** Running the same events over the result of running them changes nothing. */
  lemma ProcessAllIdempotent(s: Store, evs: seq<Json>)
    requires AllShaped(evs)
    ensures ProcessAll(ProcessAll(s, evs), evs) == ProcessAll(s, evs)
  {
    ProcessAllContents(s, evs);
    AllDuplicates(Config(false, "", false, ""), ProcessAll(s, evs), evs);
  }

  /** Of several events sharing a new key, the first one's record is the one stored. */
  lemma FirstOccurrenceWins(s: Store, evs: seq<Json>, i: nat, j: nat)
    requires AllShaped(evs)
    requires i < j < |evs| && EventId(evs[i]) == EventId(evs[j]) && EventId(evs[i]) !in s
    requires forall m :: 0 <= m < i ==> EventId(evs[m]) != EventId(evs[i])
    ensures EventId(evs[i]) in ProcessAll(s, evs)
    ensures ProcessAll(s, evs)[EventId(evs[i])] == Normalize(evs[i])
    ensures ProcessAll(s, evs)[EventId(evs[j])].payload == evs[i]
  {
    var k := EventId(evs[i]);
    ProcessAllContents(s, evs);
    assert FirstIndex(evs, k) == i;
  }

  /**
   Two batches whose steps run interleaved in any order (concurrent requests,
   each step atomic) leave the same keys as running them one after the other:
   one row per distinct key, no key lost, and each new row is the record of
   one of the events delivered for it.
   */
  lemma InterleavedBatches(s: Store, b1: seq<Json>, b2: seq<Json>, m: seq<Json>)
    requires AllShaped(b1) && AllShaped(b2)
    requires multiset(m) == multiset(b1) + multiset(b2)
    ensures AllShaped(m)
    ensures ProcessAll(s, m).Keys == s.Keys + Ids(b1) + Ids(b2) == ProcessAll(ProcessAll(s, b1), b2).Keys
    ensures forall k :: k in ProcessAll(s, m) && k !in s ==>
      exists e :: (e in b1 || e in b2) && EventId(e) == k && ProcessAll(s, m)[k] == Normalize(e)
  {
    MergedIds(b1, b2, m);
    ProcessAllContents(s, m);
    ProcessAllContents(s, b1);
    ProcessAllContents(ProcessAll(s, b1), b2);
    forall k | k in ProcessAll(s, m) && k !in s
      ensures exists e :: (e in b1 || e in b2) && EventId(e) == k && ProcessAll(s, m)[k] == Normalize(e)
    {
      var e := m[FirstIndex(m, k)];
      assert e in m;
    }
  }

  /** A merge of two batches holds exactly their events, hence their keys. */
  lemma MergedIds(b1: seq<Json>, b2: seq<Json>, m: seq<Json>)
    requires AllShaped(b1) && AllShaped(b2)
    requires multiset(m) == multiset(b1) + multiset(b2)
    ensures forall e :: e in m <==> e in b1 || e in b2
    ensures AllShaped(m) && Ids(m) == Ids(b1) + Ids(b2)
  {
    forall e ensures e in m <==> e in b1 || e in b2 {
      assert e in m <==> e in multiset(m);
      assert e in b1 <==> e in multiset(b1);
      assert e in b2 <==> e in multiset(b2);
    }
  }

  /** The answer to the HTTP request: accepted, or a validation failure carrying every violation. */
  datatype Response = Accepted | Rejected(errors: set<Violation>)

  datatype Handled = Handled(response: Response, store: Store, log: seq<LogEntry>)

  /** Every event of a valid batch can be processed. */
  lemma ValidBatchShaped(c: Checks, batch: seq<Json>)
    requires forall i :: 0 <= i < |batch| ==> ValidEvent(c, batch[i])
    ensures AllShaped(batch)
  {
    forall e | e in batch ensures Shaped(e) {
      var i :| 0 <= i < |batch| && batch[i] == e;
      ValidIsShaped(c, e);
    }
  }

  /**
   `WebhookController::post`: a batch with any invalid event is rejected before
   the store is touched; a valid one is ingested event by event.
   */
  function Post(c: Checks, cfg: Config, s: Store, batch: seq<Json>): (h: Handled)
    ensures h.response.Rejected? ==>
      h.store == s && h.response.errors == Violations(c, batch) &&
      h.log == (if cfg.logMalformedPayload then
                  [MalformedPayload(cfg.malformedPayloadLevel, batch, h.response.errors)]
                else [])
    ensures h.response.Accepted? ==>
      AllShaped(batch) && h.store == ProcessAll(s, batch) && h.log == LogAll(cfg, s, batch)
  {
    match Validate(c, batch)
    case Fail(errs) =>
      var log := if cfg.logMalformedPayload then [MalformedPayload(cfg.malformedPayloadLevel, batch, errs)] else [];
      Handled(Rejected(errs), s, log)
    case Pass =>
      ValidBatchShaped(c, batch);
      Handled(Accepted, ProcessAll(s, batch), LogAll(cfg, s, batch))
  }

  /** A batch is rejected exactly when some event in it is invalid, and then with at least one violation. */
  lemma PostRejectsInvalid(c: Checks, cfg: Config, s: Store, batch: seq<Json>)
    ensures Post(c, cfg, s, batch).response.Rejected? <==> exists i :: 0 <= i < |batch| && !ValidEvent(c, batch[i])
    ensures Post(c, cfg, s, batch).response.Rejected? ==> Post(c, cfg, s, batch).response.errors != {}
  {
  }

  /**
   A batch of valid events is accepted, adds exactly its keys, leaves every old row untouched,
   stores for each new key the record of the first event carrying it, and
   keeps every row under its own key.
   */
  lemma PostAccepted(c: Checks, cfg: Config, s: Store, batch: seq<Json>)
    requires forall i :: 0 <= i < |batch| ==> ValidEvent(c, batch[i])
    ensures AllShaped(batch)
    ensures var h := Post(c, cfg, s, batch);
      && h.response.Accepted?
      && h.store.Keys == s.Keys + Ids(batch)
      && (forall k :: k in s ==> h.store[k] == s[k])
      && (forall k :: k in h.store && k !in s ==> h.store[k] == Normalize(batch[FirstIndex(batch, k)]))
      && (Consistent(s) ==> Consistent(h.store))
  {
    PostRejectsInvalid(c, cfg, s, batch);
    ProcessAllContents(s, batch);
    ProcessAllConsistent(s, batch);
  }

  /**
   Delivering the same batch again leaves the store as the first delivery left
   it and gives the same answer; after an accepted batch, every event of the
   repeat is logged as a duplicate when that log is on.
   */
  lemma PostIdempotent(c: Checks, cfg: Config, s: Store, batch: seq<Json>)
    ensures var h1 := Post(c, cfg, s, batch);
      var h2 := Post(c, cfg, h1.store, batch);
      h2.store == h1.store && h2.response == h1.response &&
      (h1.response.Accepted? ==>
         |h2.log| == (if cfg.logDuplicateEvents then |batch| else 0) &&
         forall i :: 0 <= i < |h2.log| ==> h2.log[i] == DuplicateEvent(cfg.duplicateEventsLevel, batch[i]))
  {
    var h1 := Post(c, cfg, s, batch);
    PostRejectsInvalid(c, cfg, s, batch);
    if h1.response.Accepted? {
      ProcessAllContents(s, batch);
      AllDuplicates(cfg, h1.store, batch);
    }
  }

  /** The example batch of one delivered event with category "promo" stores one row with categories ["promo"]. */
  lemma SingleEventExample(c: Checks, cfg: Config, ev: Json)
    requires ValidEvent(c, ev)
    requires Lookup(ev, "sg_event_id") == Some(JString("evt-1"))
    requires Lookup(ev, "category") == Some(JString("promo"))
    ensures var h := Post(c, cfg, map[], [ev]);
      h.response.Accepted? && h.store.Keys == {"evt-1"} && h.store["evt-1"].categories == Some(JList([JString("promo")]))
  {
    CategoryNormalisation(c, ev);
    PostRejectsInvalid(c, cfg, map[], [ev]);
    assert [ev][1..] == [];
    assert ProcessAll(map[], [ev]) == ProcessEvent(map[], ev) == map["evt-1" := Normalize(ev)];
  }

  /** Peeling one event off the front of the remaining events. */
  lemma StepAt(cfg: Config, s: Store, evs: seq<Json>, i: nat)
    requires AllShaped(evs) && i < |evs|
    ensures AllShaped(evs[i..]) && AllShaped(evs[i + 1..])
    ensures ProcessAll(s, evs[i..]) == ProcessAll(ProcessEvent(s, evs[i]), evs[i + 1..])
    ensures LogAll(cfg, s, evs[i..]) == DuplicateLog(cfg, s, evs[i]) + LogAll(cfg, ProcessEvent(s, evs[i]), evs[i + 1..])
  {
    assert evs[i..][0] == evs[i] && evs[i..][1..] == evs[i + 1..];
  }

  /**
   The loop of `post` over an accepted batch, one step at a time, with the
   store and the log threaded through.
   */
  method IngestBatch(cfg: Config, s: Store, evs: seq<Json>) returns (store: Store, log: seq<LogEntry>)
    requires AllShaped(evs)
    ensures store == ProcessAll(s, evs)
    ensures log == LogAll(cfg, s, evs)
  {
    store, log := s, [];
    var i := 0;
    while i < |evs|
      invariant 0 <= i <= |evs|
      invariant ProcessAll(store, evs[i..]) == ProcessAll(s, evs)
      invariant log + LogAll(cfg, store, evs[i..]) == LogAll(cfg, s, evs)
    {
      var entries := DuplicateLog(cfg, store, evs[i]);
      StepAt(cfg, store, evs, i);
      LoopStep(cfg, s, evs, i, store, log);
      log := log + entries;
      store := ProcessEvent(store, evs[i]);
      i := i + 1;
    }
  }

  /** One turn of the loop of `IngestBatch` keeps its log invariant. */
  lemma LoopStep(cfg: Config, s: Store, evs: seq<Json>, i: nat, store: Store, log: seq<LogEntry>)
    requires AllShaped(evs) && i < |evs|
    requires log + LogAll(cfg, store, evs[i..]) == LogAll(cfg, s, evs)
    ensures (log + DuplicateLog(cfg, store, evs[i])) + LogAll(cfg, ProcessEvent(store, evs[i]), evs[i + 1..]) == LogAll(cfg, s, evs)
  {
    StepAt(cfg, store, evs, i);
    var entries := DuplicateLog(cfg, store, evs[i]);
    var later := LogAll(cfg, ProcessEvent(store, evs[i]), evs[i + 1..]);
    assert log + (entries + later) == (log + entries) + later;
  }
}

=== FILE: json.dfy ===
/**
 A decoded webhook body as the controller receives it from `$request->input()`:
 JSON decoded into PHP values, objects and lists both becoming PHP arrays.
 The module also holds the three PHP/Laravel notions of "nothing there" that
 the controller relies on: PHP's `empty()`, Laravel's `required` rule and the
 rule that a non-implicit validation rule is skipped for absent or blank input.
 */
module Json {
  import opened Basics

  datatype Json =
    | JNull
    | JBool(b: bool)
    | JInt(i: int)
    | JFloat(f: real)
    | JString(s: string)
    | JList(items: seq<Json>)
    | JObject(fields: map<string, Json>)

  /** The answer of PHP's `gettype` for a decoded JSON value. */
  datatype PhpType = TypeNull | TypeBoolean | TypeInteger | TypeDouble | TypeString | TypeArray

  function TypeOf(v: Json): (t: PhpType)
    ensures t == TypeArray <==> v.JList? || v.JObject?
    ensures t == TypeString <==> v.JString?
    ensures t == TypeNull <==> v.JNull?
  {
    match v
    case JNull => TypeNull
    case JBool(_) => TypeBoolean
    case JInt(_) => TypeInteger
    case JFloat(_) => TypeDouble
    case JString(_) => TypeString
    case JList(_) => TypeArray
    case JObject(_) => TypeArray
  }

  /** `$value[$key]` on an event: only objects carry named keys; a missing key is None. */
  function Lookup(v: Json, key: string): (r: Option<Json>)
    ensures r.Some? <==> v.JObject? && key in v.fields
    ensures r.Some? ==> r.value == v.fields[key]
  {
    match v
    case JObject(fields) => if key in fields then Some(fields[key]) else None
    case _ => None
  }

  /** The characters PHP's `trim` removes by default. */
  const TrimmedChars: set<char> := {' ', '\t', '\n', '\r', '\0', '\U{000B}'}

  /** A string that `trim` reduces to "". */
  predicate Blank(s: string)
  {
    forall i :: 0 <= i < |s| ==> s[i] in TrimmedChars
  }

  /**
   PHP `empty()` applied to a possibly missing value: a missing key, null and
   the string "0" are empty; so is every other value PHP converts to false.
   */
  function Empty(o: Option<Json>): (r: bool)
    ensures o.None? || o == Some(JNull) || o == Some(JString("0")) ==> r
    ensures o.Some? && o.value.JString? && |o.value.s| > 1 ==> !r
    ensures o.Some? && o.value.JList? && |o.value.items| > 0 ==> !r
  {
    match o
    case None => true
    case Some(JNull) => true
    case Some(JBool(b)) => !b
    case Some(JInt(i)) => i == 0
    case Some(JFloat(f)) => f == 0.0
    case Some(JString(s)) => s == "" || s == "0"
    case Some(JList(items)) => |items| == 0
    case Some(JObject(fields)) => |fields| == 0
  }

  /** Laravel's `required`: present, not null, not a blank string, not an empty array. */
  function Filled(o: Option<Json>): (r: bool)
    ensures r ==> o.Some? && !o.value.JNull?
    ensures o.Some? && o.value.JString? ==> (r <==> !Blank(o.value.s))
    ensures r ==> Applies(o)
  {
    match o
    case None => false
    case Some(JNull) => false
    case Some(JString(s)) => !Blank(s)
    case Some(JList(items)) => |items| > 0
    case Some(JObject(fields)) => |fields| > 0
    case Some(_) => true
  }

  /**
   Whether Laravel runs a non-implicit rule (every rule here but `required`)
   on an attribute: it must be present, and a blank string is skipped.
   A present `null` is still checked.
   */
  function Applies(o: Option<Json>): (r: bool)
    ensures r ==> o.Some?
    ensures o.Some? && !o.value.JString? ==> r
    ensures o == Some(JString("")) ==> !r
  {
    o.Some? && !(o.value.JString? && Blank(o.value.s))
  }

  /** PHP's `empty` and Laravel's `required` disagree only on "0", false, 0, 0.0 and blank strings. */
  lemma EmptyVersusFilled(o: Option<Json>)
    ensures Empty(o) && Filled(o) <==>
      o.Some? && (o.value == JString("0") || o.value == JBool(false) || o.value == JInt(0) || o.value == JFloat(0.0))
    ensures !Empty(o) && !Filled(o) <==>
      o.Some? && o.value.JString? && Blank(o.value.s) && o.value.s != ""
  {
    if o.Some? && o.value.JString? {
      var s := o.value.s;
      if s == "0" {
        assert !Blank(s) by { assert s[0] !in TrimmedChars; }
      }
    }
  }
}

=== FILE: normalize.dfy ===
/**
 The record `WebhookController::processEvent` builds from one validated
 event: fields copied across, `sg_message_id` defaulting to null, the raw event
 kept as the payload, and `category` turned into the `categories` column.
 */
module Normalizer {
  import opened Basics
  import opened Json
  import opened Validation

  /** A stored webhook event, in the controller's field names; the row id and row timestamps are left to the database. */
  datatype Record = Record(
    timestamp: Json,
    email: string,
    event: Json,
    sgEventId: string,
    sgMessageId: Option<string>,
    payload: Json,
    categories: Option<Json>)

  /** An event `processEvent` can read every field of: what validation leaves it. */
  predicate Shaped(ev: Json)
  {
    && ev.JObject?
    && "email" in ev.fields && ev.fields["email"].JString?
    && "timestamp" in ev.fields
    && "event" in ev.fields
    && "sg_event_id" in ev.fields && ev.fields["sg_event_id"].JString?
    && ("sg_message_id" in ev.fields ==> ev.fields["sg_message_id"].JNull? || ev.fields["sg_message_id"].JString?)
  }

  /** Every event the validator lets through can be processed. */
  lemma ValidIsShaped(c: Checks, ev: Json)
    requires ValidEvent(c, ev)
    ensures Shaped(ev)
    ensures Lookup(ev, "sg_message_id") != Some(JNull)
  {
    assert FieldValid(c, Email, Lookup(ev, FieldName(Email)));
    assert FieldValid(c, Timestamp, Lookup(ev, FieldName(Timestamp)));
    assert FieldValid(c, EventType, Lookup(ev, FieldName(EventType)));
    assert FieldValid(c, SgEventId, Lookup(ev, FieldName(SgEventId)));
    assert FieldValid(c, SgMessageId, Lookup(ev, FieldName(SgMessageId)));
  }

  /** The idempotency key of an event. */
  function EventId(ev: Json): (id: string)
    requires Shaped(ev)
    ensures Lookup(ev, "sg_event_id") == Some(JString(id))
  {
    ev.fields["sg_event_id"].s
  }

  /**
   The `categories` column for a raw `category` value: unset exactly when PHP
   calls it empty; a string becomes the one-element list of that string; any
   other value is kept as it came.
   */
  function Categories(category: Option<Json>): (r: Option<Json>)
    ensures r.None? <==> Empty(category)
    ensures r.Some? && category.value.JString? ==> r.value == JList([category.value])
    ensures r.Some? && !category.value.JString? ==> r == category
  {
    if Empty(category) then None
    else if category.value.JString? then Some(JList([category.value]))
    else category
  }

  /** The record stored for a new event. */
  function Normalize(ev: Json): (r: Record)
    requires Shaped(ev)
    ensures r.payload == ev && r.sgEventId == EventId(ev)
  {
    var f := ev.fields;
    Record(
      f["timestamp"],
      f["email"].s,
      f["event"],
      f["sg_event_id"].s,
      if "sg_message_id" in f && f["sg_message_id"].JString? then Some(f["sg_message_id"].s) else None,
      ev,
      Categories(Lookup(ev, "category")))
  }

  /**
   The stored record copies `timestamp`, `email`, `event` and `sg_event_id`
   from the event, stores a missing or null `sg_message_id` as null, and keeps
   `categories` unset exactly when PHP calls the category empty; a set
   `categories` is a list unless it is the event's own value.
   */
  lemma NormalizeFields(ev: Json)
    requires Shaped(ev)
    ensures var r := Normalize(ev);
      && Lookup(ev, "timestamp") == Some(r.timestamp)
      && Lookup(ev, "email") == Some(JString(r.email))
      && Lookup(ev, "event") == Some(r.event)
      && Lookup(ev, "sg_event_id") == Some(JString(r.sgEventId))
      && (r.sgMessageId.None? <==> Lookup(ev, "sg_message_id") in {None, Some(JNull)})
      && (r.sgMessageId.Some? ==> Lookup(ev, "sg_message_id") == Some(JString(r.sgMessageId.value)))
      && (r.categories.None? <==> Empty(Lookup(ev, "category")))
      && (r.categories.Some? ==> r.categories.value.JList? || r.categories == Lookup(ev, "category"))
  {
  }

  /** The category names a stored `categories` value holds, in order. */
  function Names(stored: Option<Json>): (ns: seq<string>)
    ensures stored.None? ==> ns == []
  {
    match stored
    case Some(JList(items)) => seq(|items|, j requires 0 <= j < |items| => if items[j].JString? then items[j].s else "")
    case _ => []
  }

  /** A list of category names as JSON. */
  function Encode(ns: seq<string>): (v: Json)
    ensures v.JList? && |v.items| == |ns|
    ensures forall j :: 0 <= j < |ns| ==> v.items[j] == JString(ns[j])
  {
    JList(seq(|ns|, j requires 0 <= j < |ns| => JString(ns[j])))
  }

  /**
   How a validated event's `category` becomes `categories`: a non-empty
   string is wrapped in a one-element list, a non-empty array is kept as it
   came (in order), and PHP-empty values, including the string "0", leave the
   column unset. Whatever is stored is an array of strings.
   */
  lemma CategoryNormalisation(c: Checks, ev: Json)
    requires ValidEvent(c, ev)
    ensures Shaped(ev)
    ensures Normalize(ev).categories.None? <==> Empty(Lookup(ev, "category"))
    ensures forall s :: Lookup(ev, "category") == Some(JString(s)) && s != "" && s != "0" ==>
      Normalize(ev).categories == Some(JList([JString(s)])) && Names(Normalize(ev).categories) == [s]
    ensures Lookup(ev, "category") == Some(JString("0")) ==> Normalize(ev).categories.None?
    ensures forall v :: Lookup(ev, "category") == Some(v) && TypeOf(v) == TypeArray && !Empty(Some(v)) ==>
      Normalize(ev).categories == Some(v)
    ensures Normalize(ev).categories.Some? ==> StringArray(Normalize(ev).categories.value)
  {
    ValidIsShaped(c, ev);
    assert FieldValid(c, Category, Lookup(ev, FieldName(Category)));
  }

  /** Storing a non-empty list of names and reading the column back gives the same names in the same order. */
  lemma CategoryRoundTrip(ns: seq<string>)
    requires |ns| > 0
    ensures Categories(Some(Encode(ns))).Some?
    ensures Names(Categories(Some(Encode(ns)))) == ns
  {
  }

  /** A single category name comes back as a one-element list, unless PHP counts it as empty. */
  lemma SingleCategoryRoundTrip(s: string)
    ensures Names(Categories(Some(JString(s)))) == if s == "" || s == "0" then [] else [s]
  {
  }
}

=== FILE: validation.dfy ===
/**
 The batch validator of `WebhookController::post`: one rule list per event
 field, expanded over every event of the batch with the `*` wildcard, all
 violations collected before the verdict. The email-syntax and integer checks
 belong to the validation library and are taken as given functions.
 */
module Validation {
  import opened Basics
  import opened Json

  /** The library's own checks: email syntax of a string, and PHP's FILTER_VALIDATE_INT. */
  datatype Checks = Checks(emailSyntax: string -> bool, integerLike: Json -> bool)

  /** The event fields the rule set names. */
  datatype Field = Email | Timestamp | EventType | SgEventId | SgMessageId | Category

  const Fields: set<Field> := {Email, Timestamp, EventType, SgEventId, SgMessageId, Category}

  function FieldName(f: Field): (name: string)
  {
    match f
    case Email => "email"
    case Timestamp => "timestamp"
    case EventType => "event"
    case SgEventId => "sg_event_id"
    case SgMessageId => "sg_message_id"
    case Category => "category"
  }

  /** A key inside a category array: a list position or an object key. */
  datatype Key = Position(n: nat) | Name(k: string)

  /** A validated attribute: `<index>.<field>`, or `<index>.category.<key>`. */
  datatype Attribute = Top(index: nat, field: Field) | CategoryItem(index: nat, key: Key)

  datatype Rule = Required | EmailRule | IntegerRule | StringRule | StringOrArray

  datatype Violation = Violation(attribute: Attribute, rule: Rule)

  /** The rules each field carries, in the order the controller lists them. */
  function RulesOf(f: Field): (rules: seq<Rule>)
    ensures |rules| > 0
    ensures Required in rules <==> f in {Email, Timestamp, EventType, SgEventId}
    ensures Required in rules ==> rules[0] == Required && Required !in rules[1..]
    ensures f == Category <==> StringOrArray in rules
  {
    match f
    case Email => [Required, EmailRule]
    case Timestamp => [Required, IntegerRule]
    case EventType => [Required]
    case SgEventId => [Required, StringRule]
    case SgMessageId => [StringRule]
    case Category => [StringOrArray]
  }

  /**
   Whether one rule passes on a possibly missing attribute value. `required`
   looks at every attribute; the other rules are skipped where they do not
   apply (absent, or a blank string), and the category closure only objects to
   a value whose type is neither null, string nor array.
   */
  function Passes(c: Checks, rule: Rule, o: Option<Json>): (ok: bool)
    ensures rule == Required ==> (ok <==> Filled(o))
    ensures rule != Required && !Applies(o) ==> ok
    ensures rule in {EmailRule, StringRule} && o == Some(JNull) ==> !ok
    ensures rule == StringOrArray && o == Some(JNull) ==> ok
  {
    match rule
    case Required => Filled(o)
    case EmailRule => !Applies(o) || (o.value.JString? && c.emailSyntax(o.value.s))
    case IntegerRule => !Applies(o) || c.integerLike(o.value)
    case StringRule => !Applies(o) || o.value.JString?
    case StringOrArray => !Applies(o) || o.value.JNull? || TypeOf(o.value) in {TypeString, TypeArray}
  }

  /** The elements `*.category.*` expands to: list positions or object keys of an array category. */
  function CategoryItems(ev: Json): (items: map<Key, Json>)
    ensures Lookup(ev, "category").Some? && Lookup(ev, "category").value.JList? ==>
      var xs := Lookup(ev, "category").value.items;
      (forall key :: key in items <==> key.Position? && key.n < |xs|) &&
      (forall j :: 0 <= j < |xs| ==> items[Position(j)] == xs[j])
    ensures Lookup(ev, "category").Some? && Lookup(ev, "category").value.JObject? ==>
      var m := Lookup(ev, "category").value.fields;
      (forall key :: key in items <==> key.Name? && key.k in m) &&
      (forall k :: k in m ==> items[Name(k)] == m[k])
    ensures Lookup(ev, "category").None? || TypeOf(Lookup(ev, "category").value) != TypeArray ==> items == map[]
  {
    match Lookup(ev, "category")
    case Some(JList(xs)) => map j: nat | j < |xs| :: Position(j) := xs[j]
    case Some(JObject(m)) => map k | k in m :: Name(k) := m[k]
    case _ => map[]
  }

  /**
   Whether the validator still checks `rule` on field `f`. It stops checking an
   attribute once an implicit rule of it has failed; `required` is the only
   implicit rule here and comes first, so a field whose `required` fails gets no
   further check.
   */
  predicate Reached(c: Checks, f: Field, rule: Rule, o: Option<Json>)
  {
    rule == Required || Required !in RulesOf(f) || Passes(c, Required, o)
  }

  /** Every violation the rule set reports for the event at position `i`. */
  function EventViolations(c: Checks, i: nat, ev: Json): (errs: set<Violation>)
    ensures forall v :: v in errs ==> v.attribute.index == i
    ensures forall f, r :: Violation(Top(i, f), r) in errs ==>
      r in RulesOf(f) && !Passes(c, r, Lookup(ev, FieldName(f))) &&
      (r == Required || Required !in RulesOf(f) || Filled(Lookup(ev, FieldName(f))))
  {
    var items := CategoryItems(ev);
    (set f, r | f in Fields && r in RulesOf(f) && !Passes(c, r, Lookup(ev, FieldName(f)))
                && Reached(c, f, r, Lookup(ev, FieldName(f))) ::
       Violation(Top(i, f), r))
    + (set key | key in items && !Passes(c, StringRule, Some(items[key])) ::
         Violation(CategoryItem(i, key), StringRule))
  }

  /** A category array whose elements are all strings. */
  predicate StringArray(v: Json)
  {
    || (v.JList? && forall j :: 0 <= j < |v.items| ==> v.items[j].JString?)
    || (v.JObject? && forall k :: k in v.fields ==> v.fields[k].JString?)
  }

  /** What the rule set demands of one field, stated directly. */
  predicate FieldValid(c: Checks, f: Field, o: Option<Json>)
  {
    match f
    case Email => o.Some? && o.value.JString? && !Blank(o.value.s) && c.emailSyntax(o.value.s)
    case Timestamp => Filled(o) && c.integerLike(o.value)
    case EventType => Filled(o)
    case SgEventId => o.Some? && o.value.JString? && !Blank(o.value.s)
    case SgMessageId => o.None? || o.value.JString?
    case Category => o.None? || o.value.JNull? || o.value.JString? || StringArray(o.value)
  }

  /** An event the validator lets through. */
  predicate ValidEvent(c: Checks, ev: Json)
  {
    forall f :: f in Fields ==> FieldValid(c, f, Lookup(ev, FieldName(f)))
  }

  /** The rule list of a field passes exactly when the field is valid; for `category` the element rule joins in. */
  lemma FieldRulesIff(c: Checks, ev: Json, f: Field)
    ensures f != Category ==>
      ((forall r :: r in RulesOf(f) ==> Passes(c, r, Lookup(ev, FieldName(f)))) <==> FieldValid(c, f, Lookup(ev, FieldName(f))))
    ensures f == Category ==>
      ((Passes(c, StringOrArray, Lookup(ev, "category")) &&
        forall key :: key in CategoryItems(ev) ==> Passes(c, StringRule, Some(CategoryItems(ev)[key])))
       <==> FieldValid(c, Category, Lookup(ev, "category")))
  {
    if f != Category {
      PlainRulesIff(c, f, Lookup(ev, FieldName(f)));
    } else {
      CategoryRulesIff(c, ev);
    }
  }

  /** The rule list of a field other than `category` passes exactly when the value meets the field's demands. */
  lemma PlainRulesIff(c: Checks, f: Field, o: Option<Json>)
    requires f != Category
    ensures (forall r :: r in RulesOf(f) ==> Passes(c, r, o)) <==> FieldValid(c, f, o)
  {
    match f
    case Email =>
      assert (forall r :: r in RulesOf(f) ==> Passes(c, r, o)) <==> Passes(c, Required, o) && Passes(c, EmailRule, o);
    case Timestamp =>
      assert (forall r :: r in RulesOf(f) ==> Passes(c, r, o)) <==> Passes(c, Required, o) && Passes(c, IntegerRule, o);
    case EventType =>
      assert (forall r :: r in RulesOf(f) ==> Passes(c, r, o)) <==> Passes(c, Required, o);
    case SgEventId =>
      assert (forall r :: r in RulesOf(f) ==> Passes(c, r, o)) <==> Passes(c, Required, o) && Passes(c, StringRule, o);
    case SgMessageId =>
      assert (forall r :: r in RulesOf(f) ==> Passes(c, r, o)) <==> Passes(c, StringRule, o);
  }

  /** The closure and the element rule pass together exactly when the category is absent, null, a string or a string array. */
  lemma CategoryRulesIff(c: Checks, ev: Json)
    ensures (Passes(c, StringOrArray, Lookup(ev, "category")) &&
        forall key :: key in CategoryItems(ev) ==> Passes(c, StringRule, Some(CategoryItems(ev)[key])))
      <==> FieldValid(c, Category, Lookup(ev, "category"))
  {
    var o := Lookup(ev, "category");
    if o.Some? {
      var items := CategoryItems(ev);
      match o.value
      case JList(xs) =>
        if forall key :: key in items ==> Passes(c, StringRule, Some(items[key])) {
          forall j | 0 <= j < |xs| ensures xs[j].JString? {
            assert Passes(c, StringRule, Some(items[Position(j)]));
          }
        }
      case JObject(m) =>
        if forall key :: key in items ==> Passes(c, StringRule, Some(items[key])) {
          forall k | k in m ensures m[k].JString? {
            assert Passes(c, StringRule, Some(items[Name(k)]));
          }
        }
      case _ =>
    }
  }

  /** The reported violations of an event are empty exactly when the event is valid. */
  lemma {:induction false} EventViolationsIff(c: Checks, i: nat, ev: Json)
    ensures EventViolations(c, i, ev) == {} <==> ValidEvent(c, ev)
  {
    var items := CategoryItems(ev);
    if EventViolations(c, i, ev) == {} {
      forall f | f in Fields ensures FieldValid(c, f, Lookup(ev, FieldName(f))) {
        FieldRulesIff(c, ev, f);
        if Required in RulesOf(f) {
          assert Violation(Top(i, f), Required) !in EventViolations(c, i, ev);
        }
        forall r | r in RulesOf(f) ensures Passes(c, r, Lookup(ev, FieldName(f))) {
          assert Violation(Top(i, f), r) !in EventViolations(c, i, ev);
        }
        if f == Category {
          forall key | key in items ensures Passes(c, StringRule, Some(items[key])) {
            assert Violation(CategoryItem(i, key), StringRule) !in EventViolations(c, i, ev);
          }
        }
      }
    } else {
      var v :| v in EventViolations(c, i, ev);
      if v.attribute.Top? {
        var f := v.attribute.field;
        FieldRulesIff(c, ev, f);
        assert !FieldValid(c, f, Lookup(ev, FieldName(f)));
      } else {
        FieldRulesIff(c, ev, Category);
        assert !FieldValid(c, Category, Lookup(ev, FieldName(Category)));
      }
    }
  }

  /**
   Every field an event gets wrong is reported against that event: under one
   of the field's own rules, or, for `category`, under the element rule at one
   of its keys.
   */
  lemma FieldReported(c: Checks, i: nat, ev: Json, f: Field)
    requires f in Fields && !FieldValid(c, f, Lookup(ev, FieldName(f)))
    ensures || (exists r :: Violation(Top(i, f), r) in EventViolations(c, i, ev))
            || (f == Category && exists key :: Violation(CategoryItem(i, key), StringRule) in EventViolations(c, i, ev))
  {
    var o := Lookup(ev, FieldName(f));
    FieldRulesIff(c, ev, f);
    if Required in RulesOf(f) && !Passes(c, Required, o) {
      assert Violation(Top(i, f), Required) in EventViolations(c, i, ev);
    } else if f != Category {
      var r :| r in RulesOf(f) && !Passes(c, r, o);
      assert Violation(Top(i, f), r) in EventViolations(c, i, ev);
    } else if !Passes(c, StringOrArray, o) {
      assert Violation(Top(i, f), StringOrArray) in EventViolations(c, i, ev);
    } else {
      var items := CategoryItems(ev);
      var key :| key in items && !Passes(c, StringRule, Some(items[key]));
      assert Violation(CategoryItem(i, key), StringRule) in EventViolations(c, i, ev);
    }
  }

  /** All violations of a batch: the rule set expanded over every event position. */
  function Violations(c: Checks, batch: seq<Json>): (errs: set<Violation>)
    ensures forall v :: v in errs ==>
      v.attribute.index < |batch| && v in EventViolations(c, v.attribute.index, batch[v.attribute.index])
    ensures forall i, v :: 0 <= i < |batch| && v in EventViolations(c, i, batch[i]) ==> v in errs
  {
    if |batch| == 0 then {}
    else
      var last := |batch| - 1;
      assert forall i :: 0 <= i < last ==> batch[..last][i] == batch[i];
      Violations(c, batch[..last]) + EventViolations(c, last, batch[last])
  }

  /** A batch reports no violation exactly when every event in it is valid. */
  lemma {:induction false} ViolationsEmptyIff(c: Checks, batch: seq<Json>)
    ensures Violations(c, batch) == {} <==> forall i :: 0 <= i < |batch| ==> ValidEvent(c, batch[i])
  {
    if Violations(c, batch) == {} {
      forall i | 0 <= i < |batch| ensures ValidEvent(c, batch[i]) {
        EventViolationsIff(c, i, batch[i]);
      }
    } else {
      var v :| v in Violations(c, batch);
      var i := v.attribute.index;
      EventViolationsIff(c, i, batch[i]);
    }
  }

  /**
   The verdict of `$validator->fails()`: Pass, or Fail with every violation
   of every event. An empty batch passes.
   */
  function Validate(c: Checks, batch: seq<Json>): (o: Outcome<set<Violation>>)
    ensures o.Pass? <==> forall i :: 0 <= i < |batch| ==> ValidEvent(c, batch[i])
    ensures o.Fail? ==> o.error != {} && o.error == Violations(c, batch)
  {
    ViolationsEmptyIff(c, batch);
    var errs := Violations(c, batch);
    if errs == {} then Pass else Fail(errs)
  }

  /**
   A field that `required` guards and the event lacks or leaves empty (null, a
   blank string, an empty array) is reported against that event under
   `required` and nothing else, whatever the rest of the batch holds.
   */
  lemma MissingRequiredReported(c: Checks, batch: seq<Json>, i: nat, f: Field)
    requires i < |batch|
    requires f in {Email, Timestamp, EventType, SgEventId}
    requires !Filled(Lookup(batch[i], FieldName(f)))
    ensures Violation(Top(i, f), Required) in Violations(c, batch)
    ensures forall r :: Violation(Top(i, f), r) in Violations(c, batch) ==> r == Required
    ensures Validate(c, batch).Fail?
  {
    assert Required in RulesOf(f);
    assert Violation(Top(i, f), Required) in EventViolations(c, i, batch[i]);
  }

  /** A category of any type but null, string or array is reported with the closure's rule. */
  lemma BadCategoryReported(c: Checks, batch: seq<Json>, i: nat)
    requires i < |batch|
    requires Lookup(batch[i], "category").Some?
    requires TypeOf(Lookup(batch[i], "category").value) in {TypeBoolean, TypeInteger, TypeDouble}
    ensures Violation(Top(i, Category), StringOrArray) in Violations(c, batch)
    ensures Message(Violation(Top(i, Category), StringOrArray)) == Some(Digits(i) + "." + "category" + " must be a string or array.")
  {
    assert StringOrArray in RulesOf(Category);
    assert Violation(Top(i, Category), StringOrArray) in EventViolations(c, i, batch[i]);
  }

  /** Decimal digits of a natural number, most significant first. */
  function Digits(n: nat): (s: string)
    ensures |s| > 0
    ensures forall j :: 0 <= j < |s| ==> '0' <= s[j] <= '9'
  {
    var d := ['0' + (n % 10) as char];
    if n < 10 then d else Digits(n / 10) + d
  }

  /** The number a string of decimal digits denotes. */
  function ParseDigits(s: string): (n: nat)
  {
    if |s| == 0 then 0
    else
      var d := s[|s| - 1] as int - '0' as int;
      ParseDigits(s[..|s| - 1]) * 10 + (if 0 <= d <= 9 then d else 0)
  }

  /** Reading back the digits of `n` gives `n`. */
  lemma {:induction false} DigitsRoundTrip(n: nat)
    ensures ParseDigits(Digits(n)) == n
  {
    var d := ['0' + (n % 10) as char];
    if n >= 10 {
      var s := Digits(n / 10) + d;
      assert s[..|s| - 1] == Digits(n / 10);
      DigitsRoundTrip(n / 10);
    }
  }

  function KeyText(key: Key): (text: string)
  {
    match key
    case Position(n) => Digits(n)
    case Name(k) => k
  }

  /** The dotted attribute name the validator reports, e.g. `3.category` or `3.category.0`. */
  function AttributeName(a: Attribute): (name: string)
  {
    match a
    case Top(i, f) => Digits(i) + "." + FieldName(f)
    case CategoryItem(i, key) => Digits(i) + ".category." + KeyText(key)
  }

  /**
   The message text of a violation, where the controller fixes it: the category
   closure's `<attribute> must be a string or array.`. Library messages are not modelled.
   */
  function Message(v: Violation): (m: Option<string>)
    ensures m.Some? <==> v.rule == StringOrArray
  {
    if v.rule == StringOrArray then Some(AttributeName(v.attribute) + " must be a string or array.") else None
  }

  /** The category message names the event: two events' messages differ. */
  lemma CategoryMessageNamesEvent(i: nat, j: nat)
    requires Message(Violation(Top(i, Category), StringOrArray)) == Message(Violation(Top(j, Category), StringOrArray))
    ensures i == j
  {
    SameTailSamePrefix(Digits(i), Digits(j), ".", "category", " must be a string or array.");
    DigitsRoundTrip(i);
    DigitsRoundTrip(j);
  }

  /**
   Within a batch's report, the controller-worded messages identify their
   violations: two reported violations with the same such message are the same
   violation.
   */
  lemma CategoryMessagesDistinct(c: Checks, batch: seq<Json>)
    ensures forall v, w ::
      v in Violations(c, batch) && w in Violations(c, batch) && Message(v).Some? && Message(v) == Message(w)
      ==> v == w
  {
    forall v, w | v in Violations(c, batch) && w in Violations(c, batch) && Message(v).Some? && Message(v) == Message(w)
      ensures v == w
    {
      CategoryReported(c, batch, v);
      CategoryReported(c, batch, w);
      CategoryMessageNamesEvent(v.attribute.index, w.attribute.index);
    }
  }

  /** The only reported violations of the category closure are on an event's own `category`. */
  lemma CategoryReported(c: Checks, batch: seq<Json>, v: Violation)
    requires v in Violations(c, batch) && v.rule == StringOrArray
    ensures v == Violation(Top(v.attribute.index, Category), StringOrArray)
  {
    var i := v.attribute.index;
    assert v in EventViolations(c, i, batch[i]);
    if v.attribute.Top? {
      assert StringOrArray in RulesOf(v.attribute.field);
    }
  }

  lemma SameTailSamePrefix(x: string, y: string, p: string, q: string, r: string)
    requires x + p + q + r == y + p + q + r
    ensures x == y
  {
    assert |x| == |y|;
    assert x == (x + p + q + r)[..|x|];
    assert y == (y + p + q + r)[..|y|];
  }
}
